=== FILE: README.md ===
# Slide player: a Dafny model of the playback core

This project models the slide-playback front end of a kiosk "hologram"
display. At mount, a playback controller fetches a configuration document
listing slides (3D models and videos). With two or more slides it then
cycles through them forever; with one it stops after the first advance,
and an empty playlist stays on the loading view. Each advance is two-phase: the current slide's rotation timer
starts a fade-out, and a 500 ms fade timer later moves to the next index.
Each slide is shown by a viewer that reacts to its `isActive` flag:

- the video viewer plays or pauses-and-rewinds;
- the 3D viewer keeps a first-load loader overlay;
- a camera-effect viewer, which the controller does not currently render,
  runs a retrying camera pipeline and its own rotation timer.

Every component is a functional state machine:

- an immutable `State`;
- an `Event` datatype for fetch outcomes, timer expiries and prop changes;
- a pure `Step`, and `Run` folding it over an event sequence;
- a `Valid` invariant, proved to hold in every reachable state.

Pending `setTimeout` callbacks are a multiset of timer values. A React
effect is re-run exactly when one of its dependencies changes. The re-run
cleans up the timer the previous run armed, then arms its own (`Timers.Rearm`).

| file | module | models |
|---|---|---|
| `wrappers.dfy` | `Wrappers` | `Option` |
| `slides.dfy` | `Slides` | the slide descriptor and configuration document |
| `timers.dfy` | `Timers` | an effect replacing the timer it owns |
| `slide_player.dfy` | `SlidePlayer` | fetch, rotation, fade, render selection |
| `video_slide.dfy` | `VideoSlide` | the video viewer's activation effect |
| `camera_kit_slide.dfy` | `CameraKitSlide` | rotation, initialisation, retry and cleanup of the camera viewer |
| `three_d_slide.dfy` | `ThreeDSlide` | first-load/later-load readiness, zoom and field of view |
| `stage.dfy` | `Stage` | the controller driving the video viewers it renders |

Behaviours of the code that the model keeps as they are:

- **A single slide stalls.** With one slide, the fade step sets the index from 0 to 0. The rotation effect's dependencies do not change, so no new rotation timer is armed and playback stops after one fade (`SlidePlayer.SingleSlideStalls`).
- **Truthiness checks.** The error view is selected by JavaScript truthiness, so an empty message would not select it. An empty lens-group name is skipped the same way.
- **The lens guard.** It checks for at least one lens but applies the lens at index 3. With one to three lenses `applyLens` is still called, with no lens, so no lens of the group is applied whatever the engine answers. A rejection is swallowed either way (`CameraKitSlide.LensGuardMismatch`).
- **The 3D viewer's onLoad timer.** `handleModelLoad` is a new closure on every render of the 3D viewer. So every render re-runs the inner model's effect, cancelling the pending 100 ms `onLoad` call and scheduling a new one.
- **The 3D loading flags.** `setIsLoading(true)` is never called, so in every reachable state `isLoading == isFirstLoad`.
- **Retries.** Camera retries are unbounded. "Try Again" only clears the error.
- **The fade timer.** The 500 ms fade timer is never cancelled.

## Model

| member | source | states |
|---|---|---|
| Slides.RotationDelay | src/components/SlidePlayer.tsx:44 | a slide's rotation delay is its `rotation_time` in milliseconds: zero exactly when `rotation_time` is zero, and always whole seconds |
| Timers.Rearm | src/components/SlidePlayer.tsx:41-46 | re-running a timer effect: each pending timer's count drops by one if it is the previous run's pending timer and rises by one if it is the new run's, so the previous run's timer is removed, the new one is pending, and nothing else changes |
| SlidePlayer.Next | src/components/SlidePlayer.tsx:36 | the successor is `prev+1` below the end and 0 otherwise, so a valid index stays in `[0, len)` |
| SlidePlayer.ArmedTimer | src/components/SlidePlayer.tsx:41-44 | a rotation timer is armed exactly when a configuration with a slide at the index exists; it belongs to that index and lasts that slide's `rotation_time * 1000` ms |
| SlidePlayer.GoToNextSlide | src/components/SlidePlayer.tsx:32-39 | without a configuration nothing changes; otherwise the fade starts, the index stays, and exactly one 500 ms fade timer is added |
| SlidePlayer.FadeElapsed | src/components/SlidePlayer.tsx:35-38 | the fade callback moves to the wrap-around next index and ends the fade; an unchanged index leaves the pending timers untouched |
| SlidePlayer.Step | src/components/SlidePlayer.tsx:13-46 | a successful fetch stores the configuration and a failed one stores `"Error loading : "` plus the reason; loading ends on both; a second outcome or a timer not pending changes nothing |
| SlidePlayer.ViewerFor | src/components/SlidePlayer.tsx:71-75 | kind `3d` gets the 3D viewer and every other kind the video viewer, with the slide and its activation passed through |
| SlidePlayer.Render | src/components/SlidePlayer.tsx:48-79 | error view exactly when a non-empty error is stored; otherwise loading view exactly when loading, without configuration or with no slides; otherwise one viewer per slide, active exactly at the current index |
| SlidePlayer.InitValid | src/components/SlidePlayer.tsx:7-11 | the initial state (loading, no configuration, index 0) satisfies the invariant and shows the loading view |
| SlidePlayer.FetchOkPreservesValid | src/components/SlidePlayer.tsx:16-20 | storing a fetched configuration arms the rotation timer of slide 0 exactly when there is a slide |
| SlidePlayer.FetchFailPreservesValid | src/components/SlidePlayer.tsx:22-27 | a failed fetch keeps the invariant: the stored message starts with the error prefix |
| SlidePlayer.RotationFiredPreservesValid | src/components/SlidePlayer.tsx:32-39 | the rotation timer's expiry starts the fade at the same index and leaves exactly the 500 ms fade timer pending |
| SlidePlayer.FadeFiredPreservesValid | src/components/SlidePlayer.tsx:35-46 | the fade timer's expiry leaves exactly the new index's rotation timer pending, or nothing when the index did not change |
| SlidePlayer.StepPreservesValid | src/components/SlidePlayer.tsx:13-46 | every event keeps the invariant: index in range, at most one timer pending, fade-out exactly while the fade timer is pending, no timer without slides |
| SlidePlayer.RunPreservesValid | src/components/SlidePlayer.tsx:13-46 | every event sequence keeps the invariant |
| SlidePlayer.ReachableValid | src/components/SlidePlayer.tsx:7-46 | every state reachable from mounting satisfies the invariant |
| SlidePlayer.FetchOutcome | src/components/SlidePlayer.tsx:16-27 | loading ends on every fetch outcome; a failure shows the error view; success shows the slides, or the loading view for an empty playlist |
| SlidePlayer.ErrorViewIffError | src/components/SlidePlayer.tsx:23 | in reachable states the error view is shown exactly when an error is stored, since the stored message is never empty |
| SlidePlayer.ExactlyOneActive | src/components/SlidePlayer.tsx:65-75 | exactly one rendered slide is active, the one at the current index |
| SlidePlayer.NextIterCounts | src/components/SlidePlayer.tsx:36 | below the end of the playlist `k` advances add `k` to the index |
| SlidePlayer.NextIterCompose | src/components/SlidePlayer.tsx:36 | `a` advances then `b` advances are `a + b` advances |
| SlidePlayer.NextIterInRange | src/components/SlidePlayer.tsx:36 | any number of advances from a valid index stays in range |
| SlidePlayer.FullCycle | src/components/SlidePlayer.tsx:36 | `len` advances from any valid index return to it |
| SlidePlayer.TwoPhaseAdvance | src/components/SlidePlayer.tsx:32-39 | the rotation timer only starts the fade; the index moves and the fade ends when the 500 ms timer fires |
| SlidePlayer.FadeNeverCancelled | src/components/SlidePlayer.tsx:35-38 | no event other than its own expiry removes a pending fade timer |
| SlidePlayer.RotationTimerMatchesSlide | src/components/SlidePlayer.tsx:41-46 | in reachable states no timer is pending without slides, at most one is pending, and a pending rotation timer belongs to the current index and lasts `rotation_time * 1000` ms |
| SlidePlayer.SingleSlideStalls | src/components/SlidePlayer.tsx:36-46 | with one slide, the first fade leaves nothing pending and no later event changes the state |
| SlidePlayer.StalledStaysStill | src/components/SlidePlayer.tsx:41-46 | after the fetch, a state with no pending timer never changes again |
| VideoSlide.Effect | src/components/VideoSlide.tsx:12-21 | activation requests playback from the current position; deactivation pauses and rewinds to 0 |
| VideoSlide.Mount | src/components/VideoSlide.tsx:25-31 | a mounted video is muted at position 0 and plays exactly when active |
| VideoSlide.Step | src/components/VideoSlide.tsx:12-21 | the effect runs only when `isActive` changes; a rejected play request adds a log entry and leaves the element paused, with activation and position unchanged; reaching the end of the media pauses it in place; the element stays muted |
| VideoSlide.RunPreservesValid | src/components/VideoSlide.tsx:17-31 | a video is always muted, and an inactive video is paused at position 0 |
| VideoSlide.ReactivationStartsFromZero | src/components/VideoSlide.tsx:17-21 | after any history, reactivating an inactive video plays from position 0 |
| VideoSlide.RejectionOnlyLogs | src/components/VideoSlide.tsx:14-16 | a rejected play request changes neither activation nor position |
| CameraKitSlide.ArmedRotation | src/components/CameraKitSlide.tsx:47-54 | a rotation timer is armed exactly when the slide is active, a callback is given and `rotation_time` is nonzero, lasting `rotation_time * 1000` ms |
| CameraKitSlide.RerunRotation | src/components/CameraKitSlide.tsx:46-68 | a change of activation, rotation time or callback clears the old rotation timer and arms the new one; otherwise nothing happens |
| CameraKitSlide.StartAttempt | src/components/CameraKitSlide.tsx:77-80 | an attempt starts with loading on and the error cleared |
| CameraKitSlide.InitCleanup | src/components/CameraKitSlide.tsx:154-158 | cleanup cancels the pending retry and stops the run's stream, leaving other streams alone; the model also stops tracking the attempt in flight, which the program cannot do (see Left out) |
| CameraKitSlide.RerunInit | src/components/CameraKitSlide.tsx:71-72 | a change of activation, token, lens group or canvas readiness starts a new attempt exactly when the slide is active and the canvas ready; without a change nothing happens |
| CameraKitSlide.LensApplied | src/components/CameraKitSlide.tsx:121-134 | a lens of the group is applied exactly when a non-empty group is named, at least four lenses load and the engine accepts the request; it is the lens at index 3, and any failure is swallowed |
| CameraKitSlide.Acquire | src/components/CameraKitSlide.tsx:102-111 | a fresh stream is acquired and becomes the run's `mediaStream` |
| CameraKitSlide.Fail | src/components/CameraKitSlide.tsx:140-148 | a failure sets the error, ends loading and schedules one 3000 ms retry |
| CameraKitSlide.Finish | src/components/CameraKitSlide.tsx:77-149 | a started session ends loading with the error and timers unchanged; every earlier failure shows the error and schedules the retry |
| CameraKitSlide.FirstCommit | src/components/CameraKitSlide.tsx:28-36 | the first commit creates one canvas, starts loading with no error, holds no stream, and arms the rotation timer exactly under the three-way guard |
| CameraKitSlide.Mount | src/components/CameraKitSlide.tsx:28-72 | after the canvas is ready exactly one attempt has started when active, none otherwise; the rotation timer of `rotation_time * 1000` ms is pending exactly under the three-way guard |
| CameraKitSlide.StepWith | src/components/CameraKitSlide.tsx:46-187 | no step creates another canvas; a pending rotation timer calls `onSlideEnd` once when it fires, and nothing else calls it; "Try Again" clears only the error; a prop change of an initialisation dependency while active with the canvas ready starts an attempt, with loading on and no error; stale timers and outcomes change nothing; a lens error changes only the error |
| CameraKitSlide.Unmount | src/components/CameraKitSlide.tsx:154-164 | unmounting an initialised viewer stops the run's stream; in the model it also abandons the attempt in flight (see Left out) |
| CameraKitSlide.MountValid | src/components/CameraKitSlide.tsx:28-72 | the mounted state satisfies the invariant |
| CameraKitSlide.SetPropsPreservesValid | src/components/CameraKitSlide.tsx:46-72 | a prop change keeps a pending rotation timer only under the guard, and a retry only while initialisation runs |
| CameraKitSlide.FiredPreservesValid | src/components/CameraKitSlide.tsx:51-53 | a timer's expiry keeps the invariant |
| CameraKitSlide.InitDonePreservesValid | src/components/CameraKitSlide.tsx:77-149 | an attempt's outcome keeps the invariant |
| CameraKitSlide.LensError | src/components/CameraKitSlide.tsx:94-99 | once a session exists, a lens execution error shows the filter error message and changes nothing else; before any session it changes nothing |
| CameraKitSlide.StepWithPreservesValid | src/components/CameraKitSlide.tsx:46-187 | every event keeps the invariant |
| CameraKitSlide.RunPreservesValid | src/components/CameraKitSlide.tsx:46-187 | every event sequence keeps the invariant |
| CameraKitSlide.RunFixedPreservesValid | src/components/CameraKitSlide.tsx:154-158 | with failed attempts releasing their stream, the viewer never holds a stream other than the run's own |
| CameraKitSlide.ReachableTimers | src/components/CameraKitSlide.tsx:29-68 | after mounting there is one canvas, at most one rotation timer, only under the three-way guard and of `rotation_time * 1000` ms, and at most one retry |
| CameraKitSlide.RotationFiresOnce | src/components/CameraKitSlide.tsx:51-53 | a pending rotation timer calls `onSlideEnd` exactly once when it fires, and no rotation timer is left pending |
| CameraKitSlide.DeactivationClearsRotation | src/components/CameraKitSlide.tsx:65-68 | deactivation clears the pending rotation timer; in the model it also stops tracking the attempt in flight (see Left out) |
| CameraKitSlide.InitOnlyWhenActive | src/components/CameraKitSlide.tsx:72 | in the model, where an outcome arriving after cleanup is discarded, no event starts an attempt unless the slide is active and the canvas ready |
| CameraKitSlide.FailureSchedulesRetry | src/components/CameraKitSlide.tsx:140-148 | a failed attempt shows the error, ends loading and leaves a retry pending |
| CameraKitSlide.LensFailureSwallowed | src/components/CameraKitSlide.tsx:121-139 | whatever happens to the lens, a started session ends loading without an error or a retry |
| CameraKitSlide.LensGuardMismatch | src/components/CameraKitSlide.tsx:128-129 | with one to three lenses the guard passes and `applyLens` is called, yet no lens is applied whatever the engine answers; with four, an accepted request applies lens 3 and a rejected one applies none |
| CameraKitSlide.RetryIsUnbounded | src/components/CameraKitSlide.tsx:146-148 | after any number `k` of failed retries another retry is pending and `k` more attempts were made |
| CameraKitSlide.UnmountCancelsTimers | src/components/CameraKitSlide.tsx:154-158 | unmounting leaves no timer pending and stops the run's stream |
| CameraKitSlide.StreamLeakAsWritten | src/components/CameraKitSlide.tsx:102-158 | as written, a stream acquired by a failed attempt survives the retry and the unmount |
| CameraKitSlide.StreamsReleasedFixed | src/components/CameraKitSlide.tsx:154-158 | corrected, at most one stream is ever held and unmounting releases every stream |
| CameraKitSlide.HeldStreamReleased | src/components/CameraKitSlide.tsx:154-158 | in the corrected viewer the only held stream is the run's, which unmounting stops |
| ThreeDSlide.ZoomLevel | src/components/ThreeDSlide.tsx:72 | zoom is entry 0 on mobile and entry 1 on desktop, 5 when missing |
| ThreeDSlide.FieldOfView | src/components/ThreeDSlide.tsx:74 | field of view is 60 on mobile and 45 otherwise |
| ThreeDSlide.Init | src/components/ThreeDSlide.tsx:69-71 | both `isLoading` and `isFirstLoad` start true, with nothing pending |
| ThreeDSlide.Render | src/components/ThreeDSlide.tsx:44-47 | a render with the model mounted leaves exactly one fresh `onLoad` call pending and touches no other timer |
| ThreeDSlide.HandleModelLoad | src/components/ThreeDSlide.tsx:82-93 | on the first load no flag changes and a 3000 ms timer is scheduled; later loads end loading at once |
| ThreeDSlide.FirstLoadElapsed | src/components/ThreeDSlide.tsx:84-88 | the first-load timer clears both flags |
| ThreeDSlide.Step | src/components/ThreeDSlide.tsx:44-93 | when the model mounts, one 100 ms `onLoad` call is scheduled and no flag changes; `isFirstLoad` never returns to true and changes only on a pending first-load timer; a later `onLoad` ends loading |
| ThreeDSlide.Unmount | src/components/ThreeDSlide.tsx:44-47 | unmounting removes the model and cancels the pending `onLoad` call, but not the first-load timer |
| ThreeDSlide.StepPreservesValid | src/components/ThreeDSlide.tsx:69-93 | every event keeps `isLoading == isFirstLoad` and at most one pending `onLoad` call |
| ThreeDSlide.RunPreservesValid | src/components/ThreeDSlide.tsx:69-93 | every event sequence keeps the invariant |
| ThreeDSlide.ReachableFlags | src/components/ThreeDSlide.tsx:97 | in reachable states the overlay shows exactly while loading, and at most one `onLoad` call is pending |
| ThreeDSlide.FirstLoadIsDelayed | src/components/ThreeDSlide.tsx:83-88 | the first `onLoad` keeps the overlay up; both flags clear only when the 3000 ms timer fires |
| ThreeDSlide.FirstLoadNeverReturns | src/components/ThreeDSlide.tsx:71 | once `isFirstLoad` is false, no event sequence makes it true again |
| ThreeDSlide.RenderReschedulesOnLoad | src/components/ThreeDSlide.tsx:44-47 | a re-render leaves exactly one `onLoad` call pending, and unmounting cancels it |
| Stage.Sync | src/components/SlidePlayer.tsx:63-79 | one video viewer per video slide while slides are shown, none otherwise; each receives `isActive` exactly at the current index |
| Stage.Step | src/components/SlidePlayer.tsx:65-75 | controller events drive the controller; a video element's own events touch only that viewer |
| Stage.StepPreservesValid | src/components/SlidePlayer.tsx:65-75 | every video viewer stays valid and active exactly at the current index |
| Stage.RunPreservesValid | src/components/SlidePlayer.tsx:65-75 | every event sequence keeps that invariant |
| Stage.AtMostOneVideoPlays | src/components/SlidePlayer.tsx:65-75 | at most one video plays, the current slide's; every other is muted and at position 0 |
| Stage.AdvanceSwitchesVideos | src/components/SlidePlayer.tsx:35-38 | moving to another slide pauses and rewinds the old slide's video and requests playback of the new one's |

## Left out

- The configuration fetch and JSON parsing are not modelled. They become a `FetchOk`/`FetchFail` event carrying an abstract configuration.
- Console logging, analytics, routing pages and the token guard are not modelled. They do not affect playback state.
- Howler, which is imported but unused, is not modelled.
- Model preloading is not modelled. It has no effect on state.
- The Camera Kit SDK, `getUserMedia` and session calls are abstract. One attempt ends in one `InitDone` event saying how far it got.
- CameraKitSlide.LensError: a lens error from any session ever created sets `error`, which over-approximates the program. The cleanup's `pause`/`removeAllListeners`/`setSource(null)` is not modelled. That cleanup uses the `session` captured when its effect ran, so it detaches the listener of an earlier run's session, not the one this run creates. A detached session's lens errors would no longer reach `error`.
- CameraKitSlide.InitCleanup: in the model, an attempt still in flight when the effect is cleaned up is abandoned and its outcome discarded. The program cannot cancel it (CameraKitSlide.tsx:77-150). If such an attempt then fails, it still reaches its `catch` (lines 140-148) and arms a retry after `clearTimeout` has already run, so no cleanup clears that retry. The retry calls `initializeCameraKit` again, including `getUserMedia`, while the slide is inactive or after unmount. If it succeeds instead, it still sets loading off (line 139) and holds a stream no cleanup stops. Modelling this would require stale async closures.
- CameraKitSlide.InitOnlyWhenActive: holds only because of that discard. In the program a stale retry can start an attempt while the slide is inactive.
- CameraKitSlide.StreamsReleasedFixed: also holds only under that discard. A stream acquired by a stale attempt is not released by any cleanup.
- The camera viewer's "Next" button, which calls `onSlideEnd` directly, is not modelled. It is a user interaction outside the timer logic.
- Removing the camera canvas from the DOM on unmount is not modelled. Only its once-per-mount creation is.
- Rendering internals are not modelled: the three.js scene, lights, animations, `OrbitControls` autoRotate (its ref is commented out), CSS and fade animations.
- The `autoPlay` attribute of the video element is not modelled separately. Playback is requested by the effect.
- VideoSlide.Step: the media's duration is not modelled. `Progress` moves the position without bound, and reaching the end is a separate `Ended` event that pauses the element in place, as it has no `loop` attribute.
- `useIsMobile` is replaced by an `isMobile` parameter.
- `rotation_time` is modelled in whole seconds. Fractional seconds are left out.
- Slide fields the logic does not read (wall, lights, QR data, product text, audio) are not modelled.
- React StrictMode double effects are not modelled. Neither is batching beyond one state change per event.
- ThreeDSlide.Unmount: first-load timers are not cleared on unmount. The code has no cleanup for them, so the model leaves them pending.

## Findings

| source | as written | input that shows it | evidently intended | confidence | as-written member | corrected member |
|---|---|---|---|---|---|---|
| src/components/CameraKitSlide.tsx:102-158 | each attempt assigns a new camera stream to `mediaStream`; the failure path schedules a retry without stopping it; cleanup stops only the last stream | an active viewer whose first attempt acquires the camera but fails at source setup, whose retry then succeeds, and which is then unmounted: stream 0 stays live | a stream acquired by a failed attempt is stopped, so unmounting releases the camera | not executed; high that the first stream is never stopped | CameraKitSlide.StreamLeakAsWritten | CameraKitSlide.StreamsReleasedFixed |

`CameraKitSlide.Step` and `CameraKitSlide.Run` model the viewer as written. `CameraKitSlide.StepFixed` and `CameraKitSlide.RunFixed` use the corrected failure path, in which the failed attempt stops its stream. Both are instances of `CameraKitSlide.StepWith`, so every lemma stated over `StepWith` holds for both.

=== FILE: camera_kit_slide.dfy ===
/**
 * The camera-effect viewer. It has three effects:
 *  - a canvas effect that runs once per mount and creates the output canvas;
 *  - a rotation effect (dependencies: `isActive`, `rotation_time`,
 *    `onSlideEnd`) that arms one timer calling `onSlideEnd`;
 *  - an initialisation effect (dependencies: `isActive`, the token, the
 *    lens group, canvas readiness) that starts the camera pipeline and,
 *    on failure, schedules a retry after 3000 ms.
 *
 * The third-party engine is abstract: one initialisation attempt ends in
 * one `InitDone` event that says how far it got. Media streams are
 * numbered; `liveStreams` holds those acquired and not yet stopped, and
 * `stream` is the effect run's `mediaStream` variable, the only one its
 * cleanup stops.
 */
module CameraKitSlide {
  import opened Wrappers
  import opened Slides
  import opened Timers

  const RetryDelay: nat := 3000
  const InitErrorMessage: string := "Failed to start camera"
  const LensErrorMessage: string := "The current filter encountered an error"

  /** The index of the lens applied out of the loaded group. */
  const LensIndex: nat := 3

  /** Props; `onSlideEnd` is the callback's identity, `None` when not given. */
  datatype Props = Props(isActive: bool, slide: Slide, onSlideEnd: Option<nat>)

  datatype Timer = RotationTimer(delayMs: nat) | RetryTimer(delayMs: nat)

  /**
   * How loading the lens group ended: the load failed, or `count` lenses
   * loaded and the engine accepted or rejected the `applyLens` request
   * made for them.
   */
  datatype LensLoad = LensLoadFailed | LensesLoaded(count: nat, applyAccepted: bool)

  /** How far one initialisation attempt got. */
  datatype InitOutcome =
    | BootstrapFailed         // the engine or its session could not be created
    | MediaFailed             // session created, camera access refused
    | SourceFailed            // camera stream acquired, then source setup or play failed
    | Started(lenses: LensLoad)

  datatype State = State(
    props: Props,
    canvasCount: nat,
    canvasReady: bool,
    loading: bool,
    error: Option<string>,
    timers: multiset<Timer>,
    slideEndCalls: nat,
    attempting: bool,
    attempts: nat,
    sessionCreated: bool,
    appliedLens: Option<nat>,
    stream: Option<nat>,
    liveStreams: set<nat>,
    nextStream: nat)

  datatype Event =
    | SetProps(props: Props)
    | Fired(timer: Timer)
    | InitDone(outcome: InitOutcome)
    | LensExecutionError      // the session reports a failing lens
    | TryAgain                // the error overlay's button

  // ---------------------------------------------------------------------
  // Rotation effect

  /** The three-way guard: active, a callback given, a nonzero rotation time. */
  predicate RotationGuard(p: Props) {
    p.isActive && p.onSlideEnd.Some? && p.slide.rotationTime != 0
  }

  function ArmedRotation(p: Props): (t: Option<Timer>)
    ensures t.Some? <==> RotationGuard(p)
    ensures t.Some? ==> t.value == RotationTimer(RotationDelay(p.slide))
  {
    if RotationGuard(p) then Some(RotationTimer(RotationDelay(p.slide))) else None
  }

  predicate RotationDepsChanged(before: Props, after: Props) {
    before.isActive != after.isActive || before.slide.rotationTime != after.slide.rotationTime
    || before.onSlideEnd != after.onSlideEnd
  }

  /** Re-run of the rotation effect after the props changed from `before` to `s.props`. */
  function RerunRotation(s: State, before: Props): (r: State)
    ensures r.timers == (if RotationDepsChanged(before, s.props)
                         then Rearm(s.timers, ArmedRotation(before), ArmedRotation(s.props))
                         else s.timers)
    ensures r == s.(timers := r.timers)
  {
    if RotationDepsChanged(before, s.props) then
      s.(timers := Rearm(s.timers, ArmedRotation(before), ArmedRotation(s.props)))
    else s
  }

  // ---------------------------------------------------------------------
  // Initialisation effect

  /** Initialisation starts only when the slide is active and the canvas ready. */
  predicate InitGuard(p: Props, canvasReady: bool) {
    p.isActive && canvasReady
  }

  predicate InitDepsChanged(before: Props, readyBefore: bool, after: Props, readyAfter: bool) {
    before.isActive != after.isActive || before.slide.cameraKitToken != after.slide.cameraKitToken
    || before.slide.cameraKitLensGroup != after.slide.cameraKitLensGroup || readyBefore != readyAfter
  }

  /** Entry of `initializeCameraKit`: loading on, error cleared. */
  function StartAttempt(s: State): (r: State)
    ensures r.loading && r.error.None? && r.attempting && r.attempts == s.attempts + 1
    ensures r.timers == s.timers && r.liveStreams == s.liveStreams && r.stream == s.stream
  {
    s.(loading := true, error := None, attempting := true, attempts := s.attempts + 1)
  }

  /**
   * The initialisation effect's cleanup: cancel the pending retry and stop
   * the tracks of the run's `mediaStream`. An attempt still in flight is
   * abandoned.
   */
  function InitCleanup(s: State): (r: State)
    ensures RetryTimer(RetryDelay) !in r.timers || s.timers[RetryTimer(RetryDelay)] > 1
    ensures r.stream.None? && !r.attempting
    ensures s.stream.Some? ==> s.stream.value !in r.liveStreams
    ensures r.liveStreams <= s.liveStreams
    ensures forall id :: id in s.liveStreams && Some(id) != s.stream ==> id in r.liveStreams
  {
    s.(timers := s.timers - multiset{RetryTimer(RetryDelay)},
       liveStreams := if s.stream.Some? then s.liveStreams - {s.stream.value} else s.liveStreams,
       stream := None,
       attempting := false)
  }

  function RerunInit(s: State, before: Props, readyBefore: bool): (r: State)
    ensures r.attempts > s.attempts ==> InitGuard(r.props, r.canvasReady)
    ensures !InitDepsChanged(before, readyBefore, s.props, s.canvasReady) ==> r == s
    ensures InitDepsChanged(before, readyBefore, s.props, s.canvasReady) && InitGuard(s.props, s.canvasReady) ==>
      r.attempting && r.attempts == s.attempts + 1 && r.loading && r.error.None?
    ensures r.timers == s.timers || InitGuard(before, readyBefore)
  {
    if !InitDepsChanged(before, readyBefore, s.props, s.canvasReady) then s
    else
      var cleaned := if InitGuard(before, readyBefore) then InitCleanup(s) else s;
      if InitGuard(s.props, s.canvasReady) then StartAttempt(cleaned) else cleaned
  }

  /** Whether `applyLens` is called: a non-empty group named and at least one lens loaded. */
  predicate ApplyRequested(group: Option<string>, load: LensLoad) {
    group.Some? && group.value != "" && load.LensesLoaded? && load.count > 0
  }

  /**
   * Which lens of the group, if any, ends up applied. The guard only asks
   * for one lens; with fewer than four the lens at index 3 is undefined,
   * so whatever the engine answers, no lens of the group is applied. A
   * rejection by the engine is swallowed either way.
   */
  function LensApplied(group: Option<string>, load: LensLoad): (lens: Option<nat>)
    ensures lens.Some? ==> lens.value == LensIndex
    ensures lens.Some? <==> ApplyRequested(group, load) && load.count > LensIndex && load.applyAccepted
    ensures lens.Some? ==> ApplyRequested(group, load)
  {
    if group.None? || group.value == "" then None
    else match load
      case LensLoadFailed => None
      case LensesLoaded(n, accepted) =>
        if n > 0 && accepted && LensIndex < n then Some(LensIndex) else None
  }

  /** A fresh camera stream is acquired and held by the run's `mediaStream`. */
  function Acquire(s: State): (r: State)
    ensures r.stream == Some(s.nextStream) && r.liveStreams == s.liveStreams + {s.nextStream}
    ensures r.nextStream == s.nextStream + 1
  {
    s.(stream := Some(s.nextStream), liveStreams := s.liveStreams + {s.nextStream},
       nextStream := s.nextStream + 1)
  }

  /** The `catch` of an attempt: error shown, loading off, retry scheduled. */
  function Fail(s: State): (r: State)
    ensures r.error == Some(InitErrorMessage) && !r.loading && !r.attempting
    ensures r.timers == s.timers + multiset{RetryTimer(RetryDelay)}
  {
    s.(error := Some(InitErrorMessage), loading := false, attempting := false,
       timers := s.timers + multiset{RetryTimer(RetryDelay)})
  }

  /**
   * The end of an attempt. With `releaseOnFailure` a stream acquired by an
   * attempt that then fails is stopped at once; without it (the component
   * as written) it stays held, and a retry overwrites `mediaStream`.
   */
  function Finish(s: State, outcome: InitOutcome, releaseOnFailure: bool): (r: State)
    requires s.attempting
    ensures !r.attempting && !r.loading
    ensures outcome.Started? ==> (r.error == s.error && r.timers == s.timers
      && r.appliedLens == LensApplied(s.props.slide.cameraKitLensGroup, outcome.lenses))
    ensures !outcome.Started? ==> (r.error == Some(InitErrorMessage)
      && r.timers == s.timers + multiset{RetryTimer(RetryDelay)})
    ensures outcome.SourceFailed? && releaseOnFailure ==> r.liveStreams == s.liveStreams && r.stream == s.stream
  {
    match outcome
    case BootstrapFailed => Fail(s)
    case MediaFailed => Fail(s.(sessionCreated := true))
    case SourceFailed =>
      var held := Acquire(s.(sessionCreated := true));
      if releaseOnFailure then Fail(held.(liveStreams := s.liveStreams, stream := s.stream))
      else Fail(held)
    case Started(lenses) =>
      Acquire(s).(sessionCreated := true, loading := false, attempting := false,
                  appliedLens := LensApplied(s.props.slide.cameraKitLensGroup, lenses))
  }

  // ---------------------------------------------------------------------
  // Mounting, steps and unmounting

  /**
   * The first commit: the canvas is created and readiness requested, the
   * rotation effect arms its timer under its guard, and the
   * initialisation effect sees no ready canvas yet.
   */
  function FirstCommit(p: Props): (s: State)
    ensures s.canvasCount == 1 && s.attempts == 0 && s.loading && s.error.None?
    ensures s.liveStreams == {}
    ensures s.timers == if RotationGuard(p) then multiset{RotationTimer(RotationDelay(p.slide))} else multiset{}
  {
    var s := State(p, 1, true, true, None, multiset{}, 0, false, 0, false, None, None, {}, 0);
    s.(timers := Rearm(s.timers, None, ArmedRotation(p)))
  }

  /** Mounting: the first commit, then the re-render that the ready canvas causes. */
  function Mount(p: Props): (s: State)
    ensures s.canvasCount == 1 && s.canvasReady
    ensures s.attempts == (if p.isActive then 1 else 0)
    ensures s.attempting == p.isActive
    ensures s.timers == if RotationGuard(p) then multiset{RotationTimer(RotationDelay(p.slide))} else multiset{}
  {
    RerunInit(FirstCommit(p), p, false)
  }

  /**
   * The session's `LENS_EXECUTION_ERROR` listener: once a session exists,
   * a lens error is shown and nothing else changes.
   */
  function LensError(s: State): (r: State)
    ensures r.error == (if s.sessionCreated then Some(LensErrorMessage) else s.error)
    ensures r == s.(error := r.error)
  {
    if s.sessionCreated then s.(error := Some(LensErrorMessage)) else s
  }

  function StepWith(s: State, e: Event, releaseOnFailure: bool): (r: State)
    ensures r.canvasCount == s.canvasCount && r.canvasReady == s.canvasReady
    ensures r.attempts > s.attempts ==> r.loading && r.error.None? && r.attempts == s.attempts + 1
    ensures e.SetProps? && r.attempts > s.attempts ==> InitGuard(r.props, r.canvasReady)
    ensures e.SetProps? && InitDepsChanged(s.props, s.canvasReady, e.props, s.canvasReady)
              && InitGuard(e.props, s.canvasReady) ==>
      r.attempting && r.attempts == s.attempts + 1 && r.loading && r.error.None?
    ensures e.TryAgain? ==> (r.error.None? && r.timers == s.timers && r.loading == s.loading
      && r.attempting == s.attempting && r.attempts == s.attempts && r.liveStreams == s.liveStreams)
    ensures e.Fired? && e.timer !in s.timers ==> r == s
    ensures e.InitDone? && !s.attempting ==> r == s
    ensures e.Fired? && e.timer.RotationTimer? && e.timer in s.timers ==>
      r.slideEndCalls == s.slideEndCalls + 1 && r.props == s.props
    ensures !(e.Fired? && e.timer.RotationTimer?) ==> r.slideEndCalls == s.slideEndCalls
    ensures e.LensExecutionError? ==>
      && r.error == (if s.sessionCreated then Some(LensErrorMessage) else s.error)
      && r.loading == s.loading && r.timers == s.timers && r.attempting == s.attempting
      && r.liveStreams == s.liveStreams
  {
    match e
    case SetProps(p) =>
      var s' := s.(props := p);
      RerunInit(RerunRotation(s', s.props), s.props, s.canvasReady)
    case Fired(t) =>
      if t !in s.timers then s
      else
        var s' := s.(timers := s.timers - multiset{t});
        (match t
         case RotationTimer(_) => s'.(slideEndCalls := s'.slideEndCalls + 1)
         case RetryTimer(_) => StartAttempt(s'))
    case InitDone(outcome) =>
      if !s.attempting then s else Finish(s, outcome, releaseOnFailure)
    case LensExecutionError =>
      LensError(s)
    case TryAgain =>
      s.(error := None)
  }

  /** The component as written. */
  function Step(s: State, e: Event): State {
    StepWith(s, e, false)
  }

  /** The component with a failed attempt releasing the stream it acquired. */
  function StepFixed(s: State, e: Event): State {
    StepWith(s, e, true)
  }

  function Run(s: State, events: seq<Event>): State
    decreases |events|
  {
    if events == [] then s else Run(Step(s, events[0]), events[1..])
  }

  function RunFixed(s: State, events: seq<Event>): State
    decreases |events|
  {
    if events == [] then s else RunFixed(StepFixed(s, events[0]), events[1..])
  }

  /** Unmounting runs every effect's cleanup. */
  function Unmount(s: State): (r: State)
    ensures InitGuard(s.props, s.canvasReady) ==> r.stream.None? && !r.attempting
    ensures s.stream.Some? && InitGuard(s.props, s.canvasReady) ==> s.stream.value !in r.liveStreams
  {
    var s1 := s.(timers := Rearm(s.timers, ArmedRotation(s.props), None));
    if InitGuard(s.props, s.canvasReady) then InitCleanup(s1) else s1
  }

  // ---------------------------------------------------------------------
  // Invariant

  /** Timer bookkeeping shared by both variants. */
  ghost predicate Valid(s: State) {
    && s.canvasCount == 1 && s.canvasReady
    && (forall t :: t in s.timers ==>
          if t.RotationTimer? then Some(t) == ArmedRotation(s.props) && s.timers[t] == 1
          else t == RetryTimer(RetryDelay) && s.timers[t] == 1 && !s.attempting
               && InitGuard(s.props, s.canvasReady))
    && (s.attempting ==> InitGuard(s.props, s.canvasReady) && s.loading)
    && (!InitGuard(s.props, s.canvasReady) ==> s.stream.None?)
    && (s.stream.Some? ==> s.stream.value in s.liveStreams)
    && (forall id :: id in s.liveStreams ==> id < s.nextStream)
  }

  /** The corrected variant also holds at most the run's own stream. */
  ghost predicate ValidFixed(s: State) {
    && Valid(s)
    && (forall id :: id in s.liveStreams ==> Some(id) == s.stream)
    && (s.attempting || RetryTimer(RetryDelay) in s.timers ==> s.stream.None?)
  }

  lemma MountValid(p: Props)
    ensures ValidFixed(Mount(p))
  {
    var s := Mount(p);
    forall t | t in s.timers
      ensures t.RotationTimer? && Some(t) == ArmedRotation(s.props) && s.timers[t] == 1
    {
    }
  }

  lemma SetPropsPreservesValid(s: State, p: Props, fix: bool)
    requires Valid(s)
    ensures Valid(StepWith(s, SetProps(p), fix))
    ensures ValidFixed(s) ==> ValidFixed(StepWith(s, SetProps(p), fix))
  {
    var s' := s.(props := p);
    var s1 := RerunRotation(s', s.props);
    var r := StepWith(s, SetProps(p), fix);
    assert r == RerunInit(s1, s.props, s.canvasReady);
    forall t | t in s1.timers && t.RotationTimer?
      ensures Some(t) == ArmedRotation(p) && s1.timers[t] == 1
    {
      if RotationDepsChanged(s.props, p) {
        if t in s.timers {
          assert Some(t) == ArmedRotation(s.props);
        }
      }
    }
    forall t | t in r.timers
      ensures if t.RotationTimer? then Some(t) == ArmedRotation(r.props) && r.timers[t] == 1
              else t == RetryTimer(RetryDelay) && r.timers[t] == 1 && !r.attempting
                   && InitGuard(r.props, r.canvasReady)
    {
      assert r.timers[t] <= s1.timers[t];
      assert t in s1.timers;
      if !t.RotationTimer? {
        assert s1.timers[t] == s.timers[t];
        assert t in s.timers;
        assert InitGuard(s.props, s.canvasReady);
        assert !InitDepsChanged(s.props, s.canvasReady, p, s.canvasReady);
      }
    }
  }

  lemma FiredPreservesValid(s: State, t: Timer, fix: bool)
    requires Valid(s)
    ensures Valid(StepWith(s, Fired(t), fix))
    ensures ValidFixed(s) ==> ValidFixed(StepWith(s, Fired(t), fix))
  {
    if t in s.timers {
      var r := StepWith(s, Fired(t), fix);
      assert s.timers[t] == 1;
      assert r.timers == s.timers - multiset{t};
      assert r.timers[t] == 0;
    }
  }

  lemma InitDonePreservesValid(s: State, o: InitOutcome, fix: bool)
    requires Valid(s)
    ensures Valid(StepWith(s, InitDone(o), fix))
    ensures ValidFixed(s) && fix ==> ValidFixed(StepWith(s, InitDone(o), fix))
  {
    if s.attempting {
      var r := StepWith(s, InitDone(o), fix);
      assert RetryTimer(RetryDelay) !in s.timers;
      forall t | t in r.timers
        ensures if t.RotationTimer? then Some(t) == ArmedRotation(r.props) && r.timers[t] == 1
                else t == RetryTimer(RetryDelay) && r.timers[t] == 1 && !r.attempting
                     && InitGuard(r.props, r.canvasReady)
      {
        if t != RetryTimer(RetryDelay) {
          assert r.timers[t] == s.timers[t];
        }
      }
      if ValidFixed(s) && fix {
        assert s.liveStreams == {};
      }
    }
  }

  lemma StepWithPreservesValid(s: State, e: Event, fix: bool)
    requires Valid(s)
    ensures Valid(StepWith(s, e, fix))
    ensures ValidFixed(s) && fix ==> ValidFixed(StepWith(s, e, fix))
  {
    match e
    case SetProps(p) => SetPropsPreservesValid(s, p, fix);
    case Fired(t) => FiredPreservesValid(s, t, fix);
    case InitDone(o) => InitDonePreservesValid(s, o, fix);
    case LensExecutionError =>
    case TryAgain =>
  }

  lemma {:induction false} RunPreservesValid(s: State, events: seq<Event>)
    requires Valid(s)
    ensures Valid(Run(s, events))
    decreases |events|
  {
    if events != [] {
      StepWithPreservesValid(s, events[0], false);
      RunPreservesValid(Step(s, events[0]), events[1..]);
    }
  }

  lemma {:induction false} RunFixedPreservesValid(s: State, events: seq<Event>)
    requires ValidFixed(s)
    ensures ValidFixed(RunFixed(s, events))
    decreases |events|
  {
    if events != [] {
      StepWithPreservesValid(s, events[0], true);
      RunFixedPreservesValid(StepFixed(s, events[0]), events[1..]);
    }
  }

  // ---------------------------------------------------------------------
  // Properties

  /**
   * In every state reachable from mounting: exactly one canvas was
   * created, a pending rotation timer exists only under the three-way
   * guard, lasts `rotation_time * 1000` ms and is the only one, and at
   * most one retry is pending.
   */
  lemma ReachableTimers(p: Props, events: seq<Event>)
    ensures var s := Run(Mount(p), events);
      && s.canvasCount == 1
      && (forall t :: t in s.timers && t.RotationTimer? ==>
            RotationGuard(s.props) && t.delayMs == RotationDelay(s.props.slide) && s.timers[t] == 1)
      && (forall t, u :: t in s.timers && u in s.timers && t.RotationTimer? && u.RotationTimer? ==> t == u)
      && s.timers[RetryTimer(RetryDelay)] <= 1
  {
    MountValid(p);
    RunPreservesValid(Mount(p), events);
    var s := Run(Mount(p), events);
    if RetryTimer(RetryDelay) in s.timers {
      assert s.timers[RetryTimer(RetryDelay)] == 1;
    }
  }

  /**
   * A pending rotation timer calls `onSlideEnd` once when it fires, and
   * no rotation timer is left pending afterwards.
   */
  lemma RotationFiresOnce(s: State, t: Timer, fix: bool)
    requires Valid(s) && t in s.timers && t.RotationTimer?
    ensures var r := StepWith(s, Fired(t), fix);
      && r.slideEndCalls == s.slideEndCalls + 1
      && (forall u :: u in r.timers ==> !u.RotationTimer?)
  {
    var r := StepWith(s, Fired(t), fix);
    assert s.timers[t] == 1;
    forall u: Timer | u.RotationTimer?
      ensures u !in r.timers
    {
      if u in s.timers {
        assert Some(u) == ArmedRotation(s.props) == Some(t);
      }
    }
  }

  /** Deactivation clears the pending rotation timer. */
  lemma DeactivationClearsRotation(s: State, p: Props, fix: bool)
    requires Valid(s) && !p.isActive
    ensures forall t :: t in StepWith(s, SetProps(p), fix).timers ==> !t.RotationTimer?
    ensures !StepWith(s, SetProps(p), fix).attempting
  {
    SetPropsPreservesValid(s, p, fix);
  }

  /** A new attempt starts only while the slide is active and the canvas ready. */
  lemma InitOnlyWhenActive(s: State, e: Event, fix: bool)
    requires Valid(s)
    ensures var r := StepWith(s, e, fix);
      r.attempts > s.attempts ==> InitGuard(r.props, r.canvasReady) && r.loading && r.error.None?
  {
  }

  /** A failed attempt shows the error, ends loading and schedules a retry in 3000 ms. */
  lemma FailureSchedulesRetry(s: State, o: InitOutcome, fix: bool)
    requires Valid(s) && s.attempting && !o.Started?
    ensures var r := StepWith(s, InitDone(o), fix);
      && r.error == Some(InitErrorMessage) && !r.loading
      && RetryTimer(RetryDelay) in r.timers && Valid(r)
  {
    InitDonePreservesValid(s, o, fix);
  }

  /** Whatever happens to the lens, a started session ends loading and schedules no retry. */
  lemma LensFailureSwallowed(s: State, lenses: LensLoad, fix: bool)
    requires Valid(s) && s.attempting
    ensures var r := StepWith(s, InitDone(Started(lenses)), fix);
      && !r.loading && r.error == s.error && !r.attempting
      && RetryTimer(RetryDelay) !in r.timers
  {
  }

  /**
   * With one to three lenses the guard passes and `applyLens` is called,
   * yet no lens is applied whatever the engine answers; with four or more
   * an accepted request applies lens 3.
   */
  lemma LensGuardMismatch(group: string, n: nat, accepted: bool)
    requires group != "" && 0 < n <= LensIndex
    ensures ApplyRequested(Some(group), LensesLoaded(n, accepted))
    ensures LensApplied(Some(group), LensesLoaded(n, accepted)).None?
    ensures LensApplied(Some(group), LensesLoaded(LensIndex + 1, true)) == Some(LensIndex)
    ensures LensApplied(Some(group), LensesLoaded(LensIndex + 1, false)).None?
  {
  }

  /** `k` rounds of a retry firing and the new attempt failing. */
  function RetryRounds(k: nat): (events: seq<Event>)
    ensures |events| == 2 * k
  {
    if k == 0 then [] else [Fired(RetryTimer(RetryDelay)), InitDone(BootstrapFailed)] + RetryRounds(k - 1)
  }

  /**
   * Retries are unbounded: after any number of failed retries another
   * retry is pending, and every round started one more attempt.
   */
  lemma {:induction false} RetryIsUnbounded(s: State, k: nat)
    requires Valid(s) && RetryTimer(RetryDelay) in s.timers
    ensures var r := Run(s, RetryRounds(k));
      r.attempts == s.attempts + k && RetryTimer(RetryDelay) in r.timers
      && (k > 0 ==> r.error == Some(InitErrorMessage))
    ensures Valid(Run(s, RetryRounds(k)))
    decreases k
  {
    if k > 0 {
      var s1 := Step(s, Fired(RetryTimer(RetryDelay)));
      StepWithPreservesValid(s, Fired(RetryTimer(RetryDelay)), false);
      var s2 := Step(s1, InitDone(BootstrapFailed));
      StepWithPreservesValid(s1, InitDone(BootstrapFailed), false);
      assert s2.attempts == s.attempts + 1;
      assert RetryTimer(RetryDelay) in s2.timers;
      var evs := RetryRounds(k);
      assert evs[0] == Fired(RetryTimer(RetryDelay));
      assert evs[1..][0] == InitDone(BootstrapFailed);
      assert evs[1..][1..] == RetryRounds(k - 1);
      assert Run(s, evs) == Run(s2, RetryRounds(k - 1));
      RetryIsUnbounded(s2, k - 1);
    }
  }

  /** Unmounting leaves no timer pending and stops the run's stream. */
  lemma UnmountCancelsTimers(s: State)
    requires Valid(s)
    ensures var r := Unmount(s);
      && r.timers == multiset{}
      && !r.attempting && r.stream.None?
      && (s.stream.Some? ==> s.stream.value !in r.liveStreams)
  {
    var s1 := s.(timers := Rearm(s.timers, ArmedRotation(s.props), None));
    var r := Unmount(s);
    forall u
      ensures r.timers[u] == 0
    {
      if u in s.timers {
        if u.RotationTimer? {
          assert s1.timers[u] == 0;
        } else {
          assert s1.timers[u] == 1;
        }
      }
    }
    assert r.timers == multiset{};
  }

  // ---------------------------------------------------------------------
  // Finding: a stream acquired by a failed attempt is never stopped

  /**
   * As written: an attempt acquires the camera, then fails; the retry
   * acquires it again and overwrites `mediaStream`; unmounting stops only
   * the second stream, so the first stays live.
   */
  lemma StreamLeakAsWritten(slide: Slide)
    ensures var p := Props(true, slide, None);
      var s := Run(Mount(p), [InitDone(SourceFailed), Fired(RetryTimer(RetryDelay)), InitDone(Started(LensLoadFailed))]);
      Unmount(s).liveStreams == {0}
  {
    var p := Props(true, slide, None);
    var evs := [InitDone(SourceFailed), Fired(RetryTimer(RetryDelay)), InitDone(Started(LensLoadFailed))];
    var s0 := Mount(p);
    var s1 := Step(s0, evs[0]);
    assert s1.liveStreams == {0} && RetryTimer(RetryDelay) in s1.timers;
    var s2 := Step(s1, evs[1]);
    assert s2.attempting && s2.liveStreams == {0};
    var s3 := Step(s2, evs[2]);
    assert s3.liveStreams == {0, 1} && s3.stream == Some(1);
    calc {
      Run(s0, evs);
      Run(s1, evs[1..]);
      { assert evs[1..][0] == evs[1]; }
      Run(s2, evs[2..]);
      { assert evs[2..][0] == evs[2] && evs[2..][1..] == []; }
      Run(s3, []);
    }
    assert Unmount(s3).liveStreams == {0};
  }

  /**
   * Corrected: when a failed attempt stops the stream it acquired, at most
   * one camera stream is ever held, and unmounting releases every stream.
   */
  lemma StreamsReleasedFixed(p: Props, events: seq<Event>)
    ensures var s := RunFixed(Mount(p), events);
      |s.liveStreams| <= 1 && Unmount(s).liveStreams == {}
  {
    MountValid(p);
    RunFixedPreservesValid(Mount(p), events);
    HeldStreamReleased(RunFixed(Mount(p), events));
  }

  lemma HeldStreamReleased(s: State)
    requires ValidFixed(s)
    ensures |s.liveStreams| <= 1 && Unmount(s).liveStreams == {}
  {
    if s.stream.Some? {
      assert s.liveStreams == {s.stream.value};
      assert InitGuard(s.props, s.canvasReady);
    } else {
      assert s.liveStreams == {};
    }
  }
}

=== FILE: slide_player.dfy ===
/**
 * The playback controller: fetches the configuration once, then cycles
 * through its slides. Every advance is two-phase: the rotation timer of
 * the current slide starts a fade-out, and a 500 ms fade timer later
 * moves to the next index and ends the fade.
 *
 * The component's state hooks are the fields of `State`; the pending
 * `setTimeout` callbacks are the multiset `timers`. The rotation effect
 * (dependencies: index and configuration) is re-run by `Step` exactly
 * when one of those dependencies changes, as React does.
 */
module SlidePlayer {
  import opened Wrappers
  import opened Slides
  import opened Timers

  /** Delay of the fade timer scheduled by every advance. */
  const FadeDelay: nat := 500

  /** Prefix of the message stored when the configuration fetch fails. */
  const ErrorPrefix: string := "Error loading : "

  datatype Timer =
    | RotationTimer(slideIndex: nat, delayMs: nat)
    | FadeTimer(delayMs: nat)

  datatype State = State(
    config: Option<Config>,
    index: nat,
    loading: bool,
    error: Option<string>,
    fadeOut: bool,
    fetchPending: bool,
    timers: multiset<Timer>)

  /**
   * The outcome of the one configuration fetch (a non-ok response, a
   * network failure and a parse failure are all `FetchFail`), or the
   * expiry of a pending timer.
   */
  datatype Event =
    | FetchOk(cfg: Config)
    | FetchFail(reason: string)
    | Fired(timer: Timer)

  /** The state after mounting: loading, no configuration, nothing pending. */
  function Init(): State {
    State(None, 0, true, None, false, true, multiset{})
  }

  /** Number of slides of the loaded configuration (0 when there is none). */
  function SlideCount(config: Option<Config>): nat {
    if config.Some? then |config.value.files| else 0
  }

  /** The wrap-around successor of slide index `prev` in a playlist of `len` slides. */
  function Next(prev: nat, len: nat): (n: nat)
    ensures prev < len ==> n < len
    ensures n == 0 || n == prev + 1
    ensures prev + 1 < len ==> n == prev + 1
    ensures prev + 1 >= len ==> n == 0
  {
    if prev + 1 >= len then 0 else prev + 1
  }

  /**
   * The rotation timer that the rotation effect arms for this index and
   * configuration: none without a configuration or without slides.
   */
  function ArmedTimer(config: Option<Config>, index: nat): (t: Option<Timer>)
    ensures t.Some? <==> config.Some? && index < |config.value.files|
    ensures t.Some? ==> (t.value.RotationTimer? && t.value.slideIndex == index
      && t.value.delayMs == RotationDelay(config.value.files[index]))
  {
    if config.Some? && index < |config.value.files| then
      Some(RotationTimer(index, RotationDelay(config.value.files[index])))
    else
      None
  }

  /** `goToNextSlide`: start the fade-out and schedule the index change. */
  function GoToNextSlide(s: State): (r: State)
    ensures s.config.None? ==> r == s
    ensures s.config.Some? ==> (r.fadeOut && r.index == s.index
      && r.timers == s.timers + multiset{FadeTimer(FadeDelay)})
    ensures r.config == s.config && r.loading == s.loading && r.error == s.error
  {
    if s.config.None? then s
    else s.(fadeOut := true, timers := s.timers + multiset{FadeTimer(FadeDelay)})
  }

  /**
   * The fade timer's callback: move to the wrap-around next index, end
   * the fade, and re-run the rotation effect when the index changed.
   */
  function FadeElapsed(s: State): (r: State)
    ensures !r.fadeOut
    ensures r.index == Next(s.index, SlideCount(s.config))
    ensures r.config == s.config && r.loading == s.loading && r.error == s.error
    ensures r.index == s.index ==> r.timers == s.timers
  {
    var next := Next(s.index, SlideCount(s.config));
    if next == s.index then s.(fadeOut := false)
    else
      s.(index := next, fadeOut := false,
         timers := Rearm(s.timers, ArmedTimer(s.config, s.index), ArmedTimer(s.config, next)))
  }

  function Step(s: State, e: Event): (r: State)
    ensures e.FetchOk? && s.fetchPending ==>
      r.config == Some(e.cfg) && !r.loading && r.error == s.error && !r.fetchPending
    ensures e.FetchFail? && s.fetchPending ==>
      r.error == Some(ErrorPrefix + e.reason) && !r.loading && r.config == s.config && !r.fetchPending
    ensures (e.FetchOk? || e.FetchFail?) && !s.fetchPending ==> r == s
    ensures e.Fired? && e.timer !in s.timers ==> r == s
    ensures e.Fired? ==> r.config == s.config && r.loading == s.loading && r.error == s.error
  {
    match e
    case FetchOk(cfg) =>
      if !s.fetchPending then s
      else
        s.(config := Some(cfg), loading := false, fetchPending := false,
           timers := Rearm(s.timers, ArmedTimer(s.config, s.index), ArmedTimer(Some(cfg), s.index)))
    case FetchFail(reason) =>
      if !s.fetchPending then s
      else s.(error := Some(ErrorPrefix + reason), loading := false, fetchPending := false)
    case Fired(t) =>
      if t !in s.timers then s
      else
        var s' := s.(timers := s.timers - multiset{t});
        match t
        case RotationTimer(_, _) => GoToNextSlide(s')
        case FadeTimer(_) => FadeElapsed(s')
  }

  function Run(s: State, events: seq<Event>): State
    decreases |events|
  {
    if events == [] then s else Run(Step(s, events[0]), events[1..])
  }

  // ---------------------------------------------------------------------
  // Rendering

  /** One rendered slide: the viewer chosen for it and its activation flag. */
  datatype SlideView =
    | ThreeDView(slide: Slide, isActive: bool)
    | VideoView(slide: Slide, isActive: bool)

  datatype View =
    | ErrorView(message: string)
    | LoadingView
    | SlidesView(slides: seq<SlideView>, fadingOut: bool)

  /** Kind `ThreeD` gets the 3D viewer; every other kind gets the video viewer. */
  function ViewerFor(slide: Slide, isActive: bool): (v: SlideView)
    ensures v.slide == slide && v.isActive == isActive
    ensures v.ThreeDView? <==> slide.kind == ThreeD
  {
    if slide.kind == ThreeD then ThreeDView(slide, isActive) else VideoView(slide, isActive)
  }

  /**
   * What the player renders. An error message is tested for JavaScript
   * truthiness, so an empty message would not select the error view.
   */
  function Render(s: State): (v: View)
    ensures v.ErrorView? <==> s.error.Some? && s.error.value != ""
    ensures v.ErrorView? ==> v.message == s.error.value
    ensures v.LoadingView? <==> (!v.ErrorView? &&
      (s.loading || s.config.None? || |s.config.value.files| == 0))
    ensures v.SlidesView? ==>
      && s.config.Some?
      && |v.slides| == |s.config.value.files|
      && v.fadingOut == s.fadeOut
      && (forall k :: 0 <= k < |v.slides| ==>
            && v.slides[k].slide == s.config.value.files[k]
            && (v.slides[k].isActive <==> k == s.index)
            && (v.slides[k].ThreeDView? <==> s.config.value.files[k].kind == ThreeD))
  {
    if s.error.Some? && s.error.value != "" then ErrorView(s.error.value)
    else if s.loading || s.config.None? || |s.config.value.files| == 0 then LoadingView
    else
      var files := s.config.value.files;
      SlidesView(seq(|files|, k requires 0 <= k < |files| => ViewerFor(files[k], k == s.index)), s.fadeOut)
  }

  /** Indices of the rendered slides that are marked active. */
  function ActiveIndices(slides: seq<SlideView>): set<nat> {
    set k: nat | k < |slides| && slides[k].isActive
  }

  // ---------------------------------------------------------------------
  // Invariant of every reachable state

  ghost predicate Valid(s: State) {
    var n := SlideCount(s.config);
    && (s.fetchPending <==> s.loading)
    && (s.fetchPending ==> s.config.None? && s.error.None?)
    && !(s.config.Some? && s.error.Some?)
    && (s.error.Some? ==> |s.error.value| >= |ErrorPrefix| && s.error.value[..|ErrorPrefix|] == ErrorPrefix)
    && (n == 0 ==> s.index == 0 && s.timers == multiset{} && !s.fadeOut)
    && (n > 0 ==> s.index < n)
    && |s.timers| <= 1
    && (s.fadeOut <==> FadeTimer(FadeDelay) in s.timers)
    && (forall t :: t in s.timers ==> t == FadeTimer(FadeDelay) || Some(t) == ArmedTimer(s.config, s.index))
    && (n > 1 ==> |s.timers| == 1)
  }

  /** A pending set of at most one timer that holds `t` is exactly `{t}`. */
  lemma OnlyPending(timers: multiset<Timer>, t: Timer)
    requires |timers| <= 1 && t in timers
    ensures timers == multiset{t}
  {
    var rest := timers - multiset{t};
    assert timers == rest + multiset{t};
    assert |rest| == 0;
  }

  lemma InitValid()
    ensures Valid(Init())
    ensures Render(Init()) == LoadingView
  {
  }

  lemma StepPreservesValid(s: State, e: Event)
    requires Valid(s)
    ensures Valid(Step(s, e))
  {
    match e
    case FetchOk(cfg) => FetchOkPreservesValid(s, cfg);
    case FetchFail(reason) => FetchFailPreservesValid(s, reason);
    case Fired(t) =>
      if t in s.timers {
        OnlyPending(s.timers, t);
        if t.RotationTimer? {
          RotationFiredPreservesValid(s, t);
        } else {
          FadeFiredPreservesValid(s, t);
        }
      }
  }

  lemma FetchOkPreservesValid(s: State, cfg: Config)
    requires Valid(s)
    ensures Valid(Step(s, FetchOk(cfg)))
    ensures Step(s, FetchOk(cfg)).timers ==
      if s.fetchPending && |cfg.files| > 0 then multiset{RotationTimer(0, RotationDelay(cfg.files[0]))}
      else s.timers
  {
    if s.fetchPending {
      var r := Step(s, FetchOk(cfg));
      assert s.timers == multiset{};
      if |cfg.files| > 0 {
        assert r.timers == multiset{RotationTimer(0, RotationDelay(cfg.files[0]))};
      } else {
        assert r.timers == multiset{};
      }
    }
  }

  lemma FetchFailPreservesValid(s: State, reason: string)
    requires Valid(s)
    ensures Valid(Step(s, FetchFail(reason)))
  {
    if s.fetchPending {
      var r := Step(s, FetchFail(reason));
      assert r.error.value[..|ErrorPrefix|] == ErrorPrefix;
    }
  }

  lemma RotationFiredPreservesValid(s: State, t: Timer)
    requires Valid(s) && s.timers == multiset{t} && t.RotationTimer?
    ensures Valid(Step(s, Fired(t)))
    ensures Step(s, Fired(t)).timers == multiset{FadeTimer(FadeDelay)}
    ensures Step(s, Fired(t)).fadeOut && Step(s, Fired(t)).index == s.index
  {
    var r := Step(s, Fired(t));
    assert s.timers - multiset{t} == multiset{};
    assert r.timers == multiset{FadeTimer(FadeDelay)};
  }

  lemma FadeFiredPreservesValid(s: State, t: Timer)
    requires Valid(s) && s.timers == multiset{t} && t.FadeTimer?
    ensures Valid(Step(s, Fired(t)))
    ensures var r := Step(s, Fired(t));
      && (r.index != s.index ==>
            && ArmedTimer(s.config, r.index).Some?
            && r.timers == multiset{ArmedTimer(s.config, r.index).value})
      && (r.index == s.index ==> r.timers == multiset{})
  {
    var r := Step(s, Fired(t));
    assert s.timers - multiset{t} == multiset{};
    if r.index != s.index {
      assert r.timers == multiset{ArmedTimer(s.config, r.index).value};
    } else {
      assert r.timers == multiset{};
    }
  }

  lemma {:induction false} RunPreservesValid(s: State, events: seq<Event>)
    requires Valid(s)
    ensures Valid(Run(s, events))
    decreases |events|
  {
    if events != [] {
      StepPreservesValid(s, events[0]);
      RunPreservesValid(Step(s, events[0]), events[1..]);
    }
  }

  /** Every state reachable from mounting satisfies the invariant. */
  lemma ReachableValid(events: seq<Event>)
    ensures Valid(Run(Init(), events))
  {
    InitValid();
    RunPreservesValid(Init(), events);
  }

  // ---------------------------------------------------------------------
  // Properties

  /** Whatever the fetch outcome, loading ends; a failure always shows the error view. */
  lemma FetchOutcome(e: Event)
    requires e.FetchOk? || e.FetchFail?
    ensures !Step(Init(), e).loading
    ensures e.FetchFail? ==> Render(Step(Init(), e)).ErrorView?
    ensures e.FetchOk? && |e.cfg.files| > 0 ==> Render(Step(Init(), e)).SlidesView?
    ensures e.FetchOk? && |e.cfg.files| == 0 ==> Render(Step(Init(), e)) == LoadingView
  {
    if e.FetchFail? {
      assert Step(Init(), e).error.value == ErrorPrefix + e.reason;
      assert |ErrorPrefix + e.reason| > 0;
    }
  }

  /** In reachable states the error view is shown exactly when an error is stored. */
  lemma ErrorViewIffError(s: State)
    requires Valid(s)
    ensures Render(s).ErrorView? <==> s.error.Some?
  {
    if s.error.Some? {
      assert |s.error.value| >= |ErrorPrefix| > 0;
    }
  }

  /** Exactly one rendered slide is active: the one at the current index. */
  lemma ExactlyOneActive(s: State)
    requires Valid(s)
    requires Render(s).SlidesView?
    ensures ActiveIndices(Render(s).slides) == {s.index}
    ensures |ActiveIndices(Render(s).slides)| == 1
  {
    var v := Render(s);
    assert s.index < |v.slides|;
    assert v.slides[s.index].isActive;
    assert ActiveIndices(v.slides) == {s.index};
  }

  /** `Next` applied `k` times. */
  function NextIter(i: nat, k: nat, len: nat): nat
    decreases k
  {
    if k == 0 then i else NextIter(Next(i, len), k - 1, len)
  }

  /** Below the end of the playlist, `k` advances add `k` to the index. */
  lemma {:induction false} NextIterCounts(i: nat, k: nat, len: nat)
    requires i + k < len
    ensures NextIter(i, k, len) == i + k
    decreases k
  {
    if k > 0 {
      NextIterCounts(i + 1, k - 1, len);
    }
  }

  /** `a` advances followed by `b` advances are `a + b` advances. */
  lemma {:induction false} NextIterCompose(i: nat, a: nat, b: nat, len: nat)
    ensures NextIter(NextIter(i, a, len), b, len) == NextIter(i, a + b, len)
    decreases a
  {
    if a > 0 {
      NextIterCompose(Next(i, len), a - 1, b, len);
    }
  }

  /** Any number of advances from a valid index stays in range. */
  lemma {:induction false} NextIterInRange(i: nat, k: nat, len: nat)
    requires i < len
    ensures NextIter(i, k, len) < len
    decreases k
  {
    if k > 0 {
      NextIterInRange(Next(i, len), k - 1, len);
    }
  }

  /** A full cycle of `len` advances returns to the starting index. */
  lemma FullCycle(i: nat, len: nat)
    requires i < len
    ensures NextIter(i, len, len) == i
  {
    // len - i - 1 advances reach the last slide, one more wraps to 0,
    // and i more come back to i.
    NextIterCounts(i, len - i - 1, len);
    assert NextIter(len - 1, 1, len) == 0;
    NextIterCompose(i, len - i - 1, 1, len);
    if i > 0 {
      NextIterCounts(0, i, len);
    }
    NextIterCompose(i, len - i, i, len);
  }

  /**
   * The advance is two-phase: when the rotation timer fires only the
   * fade starts; the index moves and the fade ends when the 500 ms
   * timer fires.
   */
  lemma TwoPhaseAdvance(s: State, t: Timer)
    requires Valid(s)
    requires t in s.timers && t.RotationTimer?
    ensures var r1 := Step(s, Fired(t));
      && r1.fadeOut && r1.index == s.index
      && r1.timers == multiset{FadeTimer(FadeDelay)}
      && var r2 := Step(r1, Fired(FadeTimer(FadeDelay)));
         && !r2.fadeOut
         && r2.index == Next(s.index, |s.config.value.files|)
         && r2.index < |s.config.value.files|
  {
    OnlyPending(s.timers, t);
    assert s.config.Some?;
  }

  /** The fade timer is never cleared: only its own firing removes it. */
  lemma FadeNeverCancelled(s: State, e: Event)
    requires e != Fired(FadeTimer(FadeDelay))
    ensures Step(s, e).timers[FadeTimer(FadeDelay)] >= s.timers[FadeTimer(FadeDelay)]
  {
    match e
    case FetchOk(cfg) =>
    case FetchFail(_) =>
    case Fired(t) =>
      if t in s.timers {
        var s' := s.(timers := s.timers - multiset{t});
        assert s'.timers[FadeTimer(FadeDelay)] == s.timers[FadeTimer(FadeDelay)];
      }
  }

  /**
   * In reachable states a pending rotation timer belongs to the current
   * index and configuration and lasts `rotation_time * 1000` ms, and no
   * timer is pending without slides.
   */
  lemma RotationTimerMatchesSlide(events: seq<Event>)
    ensures var s := Run(Init(), events);
      && |s.timers| <= 1
      && (SlideCount(s.config) == 0 ==> s.timers == multiset{})
      && (SlideCount(s.config) > 1 ==> |s.timers| == 1)
      && forall i: nat, d: nat :: RotationTimer(i, d) in s.timers ==>
           i == s.index && i < |s.config.value.files|
           && d == RotationDelay(s.config.value.files[i])
  {
    ReachableValid(events);
    var s := Run(Init(), events);
    forall i: nat, d: nat | RotationTimer(i, d) in s.timers
      ensures i == s.index && i < |s.config.value.files|
      ensures d == RotationDelay(s.config.value.files[i])
    {
      assert Some(RotationTimer(i, d)) == ArmedTimer(s.config, s.index);
    }
  }

  /**
   * With a single slide, the fade step leaves the index at 0, so the
   * rotation effect's dependencies do not change and no new rotation
   * timer is armed: after the first advance nothing is pending and no
   * event changes the state again.
   */
  lemma SingleSlideStalls(s: State, events: seq<Event>)
    requires Valid(s)
    requires SlideCount(s.config) == 1 && s.fadeOut
    ensures var r := Step(s, Fired(FadeTimer(FadeDelay)));
      r.timers == multiset{} && r.index == 0 && Run(r, events) == r
  {
    OnlyPending(s.timers, FadeTimer(FadeDelay));
    var r := Step(s, Fired(FadeTimer(FadeDelay)));
    assert r.timers == multiset{};
    StalledStaysStill(r, events);
  }

  lemma {:induction false} StalledStaysStill(r: State, events: seq<Event>)
    requires !r.fetchPending && r.timers == multiset{}
    ensures Run(r, events) == r
    decreases |events|
  {
    if events != [] {
      assert Step(r, events[0]) == r;
      StalledStaysStill(r, events[1..]);
    }
  }
}

=== FILE: slides.dfy ===
/**
 * The slide descriptors read from the remote configuration document.
 * Only the fields that the playback logic reads are kept: the asset
 * locator, the rotation time, the kind tag, the zoom pair and the two
 * camera-effect fields.
 */
module Slides {
  import opened Wrappers

  /** The two-tag slide kind, `"3d" | "Video"`. */
  datatype SlideType = ThreeD | Video

  /**
   * One entry of `files`. `rotationTime` is in whole seconds. `zoom` is
   * `None` when the field is missing; each entry is `None` when it is
   * null or undefined.
   */
  datatype Slide = Slide(
    file: string,
    rotationTime: nat,
    kind: SlideType,
    zoom: Option<seq<Option<real>>>,
    cameraKitToken: Option<string>,
    cameraKitLensGroup: Option<string>)

  /** The whole configuration document: the playlist plus the logo. */
  datatype Config = Config(files: seq<Slide>, companyLogo: string)

  /** Milliseconds per second: every `rotation_time` is scaled by this. */
  const MillisPerSecond: nat := 1000

  /** The delay, in milliseconds, of a rotation timer armed for `slide`. */
  function RotationDelay(slide: Slide): (ms: nat)
    ensures ms == 0 <==> slide.rotationTime == 0
    ensures ms % MillisPerSecond == 0 && ms / MillisPerSecond == slide.rotationTime
  {
    slide.rotationTime * MillisPerSecond
  }
}

=== FILE: stage.dfy ===
/**
 * The player together with the video viewers it renders. After every
 * player step the rendered slides are reconciled: a video viewer that
 * stays mounted receives the new `isActive`, a new one mounts, and the
 * error and loading views unmount them all. Viewers are identified by
 * their slide index, as the rendered list is keyed by index.
 */
module Stage {
  import opened Slides
  import SlidePlayer
  import VideoSlide

  datatype State = State(player: SlidePlayer.State, videos: map<nat, VideoSlide.State>)

  datatype Event =
    | Player(playerEvent: SlidePlayer.Event)
    | Media(k: nat, mediaEvent: VideoSlide.Event)   // an event of the video element of slide `k`

  /** Reconcile the mounted video viewers with what the player renders. */
  function Sync(p: SlidePlayer.State, videos: map<nat, VideoSlide.State>): (r: map<nat, VideoSlide.State>)
    ensures !SlidePlayer.Render(p).SlidesView? ==> r == map[]
    ensures SlidePlayer.Render(p).SlidesView? ==>
      forall k: nat :: k in r <==> k < |p.config.value.files| && p.config.value.files[k].kind == Video
    ensures forall k :: k in r ==> r[k].isActive == (k == p.index)
    ensures forall k :: k in r && k in videos ==>
      r[k] == VideoSlide.Step(videos[k], VideoSlide.SetActive(k == p.index))
    ensures forall k :: k in r && k !in videos ==> r[k] == VideoSlide.Mount(k == p.index)
  {
    match SlidePlayer.Render(p)
    case SlidesView(slides, _) =>
      map k: nat | k < |slides| && slides[k].VideoView? ::
        if k in videos then VideoSlide.Step(videos[k], VideoSlide.SetActive(slides[k].isActive))
        else VideoSlide.Mount(slides[k].isActive)
    case _ => map[]
  }

  function Init(): State {
    State(SlidePlayer.Init(), map[])
  }

  function Step(s: State, ev: Event): (r: State)
    ensures ev.Player? ==> r.player == SlidePlayer.Step(s.player, ev.playerEvent)
    ensures ev.Media? ==> r.player == s.player
    ensures ev.Media? && (ev.k !in s.videos || ev.mediaEvent.SetActive?) ==> r == s
    ensures ev.Media? && ev.k in s.videos && !ev.mediaEvent.SetActive? ==>
      r.videos == s.videos[ev.k := VideoSlide.Step(s.videos[ev.k], ev.mediaEvent)]
  {
    match ev
    case Player(e) =>
      var p := SlidePlayer.Step(s.player, e);
      State(p, Sync(p, s.videos))
    case Media(k, e) =>
      // Activation changes come only from the parent's render.
      if k !in s.videos || e.SetActive? then s
      else s.(videos := s.videos[k := VideoSlide.Step(s.videos[k], e)])
  }

  function Run(s: State, events: seq<Event>): State
    decreases |events|
  {
    if events == [] then s else Run(Step(s, events[0]), events[1..])
  }

  ghost predicate Valid(s: State) {
    && SlidePlayer.Valid(s.player)
    && (forall k :: k in s.videos ==>
          && VideoSlide.Valid(s.videos[k])
          && s.videos[k].isActive == (k == s.player.index))
  }

  lemma StepPreservesValid(s: State, ev: Event)
    requires Valid(s)
    ensures Valid(Step(s, ev))
  {
    match ev
    case Player(e) =>
      SlidePlayer.StepPreservesValid(s.player, e);
    case Media(k, e) =>
  }

  lemma {:induction false} RunPreservesValid(s: State, events: seq<Event>)
    requires Valid(s)
    ensures Valid(Run(s, events))
    decreases |events|
  {
    if events != [] {
      StepPreservesValid(s, events[0]);
      RunPreservesValid(Step(s, events[0]), events[1..]);
    }
  }

  /**
   * Whatever happened since mounting, at most one video plays, and only
   * the one of the current slide; every other mounted video is paused at
   * position 0.
   */
  lemma AtMostOneVideoPlays(events: seq<Event>)
    ensures var s := Run(Init(), events);
      && (forall k :: k in s.videos && s.videos[k].playing ==> k == s.player.index)
      && (forall k :: k in s.videos && k != s.player.index ==> s.videos[k].position == 0)
      && (forall k :: k in s.videos ==> s.videos[k].muted)
  {
    SlidePlayer.InitValid();
    RunPreservesValid(Init(), events);
  }

  /**
   * When the fade timer moves playback to another slide, a video on the
   * slide left behind is paused and rewound, and a video on the new
   * slide is asked to play.
   */
  lemma AdvanceSwitchesVideos(s: State)
    requires Valid(s) && s.player.fadeOut
    ensures var r := Step(s, Player(SlidePlayer.Fired(SlidePlayer.FadeTimer(SlidePlayer.FadeDelay))));
      && (r.player.index != s.player.index && s.player.index in r.videos ==>
            !r.videos[s.player.index].playing && r.videos[s.player.index].position == 0)
      && (r.player.index != s.player.index && r.player.index in r.videos ==>
            r.videos[r.player.index].playing)
  {
    SlidePlayer.OnlyPending(s.player.timers, SlidePlayer.FadeTimer(SlidePlayer.FadeDelay));
  }
}

=== FILE: three_d_slide.dfy ===
/**
 * The 3D viewer's readiness logic and camera selection. The inner `Model`
 * component calls `onLoad` 100 ms after its effect runs; `onLoad` is
 * `handleModelLoad`, a fresh closure on every render of the viewer, so
 * every render re-runs the `Model` effect, cancelling the pending call and
 * scheduling a new one. On the first load `handleModelLoad` waits another
 * 3000 ms before clearing both flags; afterwards it clears `isLoading` at
 * once. The viewer ignores `isActive`.
 */
module ThreeDSlide {
  import opened Wrappers
  import opened Slides
  import opened Timers

  const DefaultZoom: real := 5.0
  const MobileFov: nat := 60
  const DesktopFov: nat := 45
  const OnLoadDelay: nat := 100
  const FirstLoadDelay: nat := 3000

  datatype Timer = OnLoadTimer(delayMs: nat) | FirstLoadTimer(delayMs: nat)

  datatype State = State(
    isLoading: bool,
    isFirstLoad: bool,
    modelMounted: bool,
    timers: multiset<Timer>)

  datatype Event =
    | ModelReady   // the model file has loaded and `Model` mounts
    | Rerender     // the parent renders the viewer again
    | Fired(timer: Timer)

  // ---------------------------------------------------------------------
  // Camera selection

  /** Entry `k` of the zoom field; `None` when the field, or the entry, is missing. */
  function ZoomEntry(zoom: Option<seq<Option<real>>>, k: nat): Option<real> {
    if zoom.Some? && k < |zoom.value| then zoom.value[k] else None
  }

  /** Entry 0 on mobile, entry 1 on desktop, each defaulting to 5. */
  function ZoomLevel(slide: Slide, isMobile: bool): (z: real)
    ensures var entry := ZoomEntry(slide.zoom, if isMobile then 0 else 1);
      (entry.Some? ==> z == entry.value) && (entry.None? ==> z == DefaultZoom)
  {
    if isMobile then ZoomEntry(slide.zoom, 0).GetOr(DefaultZoom)
    else ZoomEntry(slide.zoom, 1).GetOr(DefaultZoom)
  }

  /** The camera's field of view: wider on mobile. */
  function FieldOfView(isMobile: bool): (fov: nat)
    ensures isMobile ==> fov == MobileFov
    ensures !isMobile ==> fov == DesktopFov
  {
    if isMobile then MobileFov else DesktopFov
  }

  // ---------------------------------------------------------------------
  // Readiness

  function Init(): (s: State)
    ensures s.isLoading && s.isFirstLoad && s.timers == multiset{}
  {
    State(true, true, false, multiset{})
  }

  /** The loader overlay is shown while the first load is in progress. */
  predicate Overlay(s: State) {
    s.isFirstLoad && s.isLoading
  }

  /** A render of the viewer: a mounted `Model` re-runs its effect with the new `onLoad`. */
  function Render(s: State): (r: State)
    ensures s.modelMounted ==> r.timers[OnLoadTimer(OnLoadDelay)] == 1 || s.timers[OnLoadTimer(OnLoadDelay)] > 1
    ensures r == s.(timers := r.timers)
    ensures forall t :: t != OnLoadTimer(OnLoadDelay) ==> r.timers[t] == s.timers[t]
  {
    if s.modelMounted then
      s.(timers := Rearm(s.timers, Some(OnLoadTimer(OnLoadDelay)), Some(OnLoadTimer(OnLoadDelay))))
    else s
  }

  /** `handleModelLoad`, called with the flags of the latest render. */
  function HandleModelLoad(s: State): (r: State)
    ensures s.isFirstLoad ==> (r.isLoading == s.isLoading && r.isFirstLoad
      && r.timers == s.timers + multiset{FirstLoadTimer(FirstLoadDelay)})
    ensures !s.isFirstLoad ==> !r.isLoading && !r.isFirstLoad
    ensures r.modelMounted == s.modelMounted
  {
    if s.isFirstLoad then s.(timers := s.timers + multiset{FirstLoadTimer(FirstLoadDelay)})
    else if s.isLoading then Render(s.(isLoading := false))
    else s
  }

  /** The first-load timer's callback: both flags off; a change re-renders. */
  function FirstLoadElapsed(s: State): (r: State)
    ensures !r.isLoading && !r.isFirstLoad && r.modelMounted == s.modelMounted
  {
    var r := s.(isLoading := false, isFirstLoad := false);
    if s.isLoading || s.isFirstLoad then Render(r) else r
  }

  function Step(s: State, e: Event): (r: State)
    ensures !s.isFirstLoad ==> !r.isFirstLoad
    ensures r.isFirstLoad != s.isFirstLoad ==>
      (e.Fired? && e.timer.FirstLoadTimer? && e.timer in s.timers)
    ensures r.isLoading != s.isLoading ==> e.Fired? && e.timer in s.timers
    ensures e.Fired? && e.timer == OnLoadTimer(OnLoadDelay) && e.timer in s.timers && !s.isFirstLoad ==> !r.isLoading
    ensures e.Fired? && e.timer !in s.timers ==> r == s
    ensures e.ModelReady? && !s.modelMounted ==>
      && r.modelMounted
      && r.timers == s.timers + multiset{OnLoadTimer(OnLoadDelay)}
      && r.isLoading == s.isLoading && r.isFirstLoad == s.isFirstLoad
  {
    match e
    case ModelReady =>
      if s.modelMounted then s
      else s.(modelMounted := true, timers := s.timers + multiset{OnLoadTimer(OnLoadDelay)})
    case Rerender => Render(s)
    case Fired(t) =>
      if t !in s.timers then s
      else
        var s' := s.(timers := s.timers - multiset{t});
        match t
        case OnLoadTimer(_) => HandleModelLoad(s')
        case FirstLoadTimer(_) => FirstLoadElapsed(s')
  }

  function Run(s: State, events: seq<Event>): State
    decreases |events|
  {
    if events == [] then s else Run(Step(s, events[0]), events[1..])
  }

  /**
   * Unmounting cancels the pending `onLoad` call and removes the model;
   * first-load timers stay, but their state updates no longer re-render.
   */
  function Unmount(s: State): (r: State)
    ensures OnLoadTimer(OnLoadDelay) !in r.timers || s.timers[OnLoadTimer(OnLoadDelay)] > 1
    ensures r.timers[FirstLoadTimer(FirstLoadDelay)] == s.timers[FirstLoadTimer(FirstLoadDelay)]
    ensures !r.modelMounted
  {
    s.(timers := s.timers - multiset{OnLoadTimer(OnLoadDelay)}, modelMounted := false)
  }

  // ---------------------------------------------------------------------
  // Invariant

  ghost predicate Valid(s: State) {
    && (s.isLoading == s.isFirstLoad)
    && s.timers[OnLoadTimer(OnLoadDelay)] <= 1
    && (OnLoadTimer(OnLoadDelay) in s.timers ==> s.modelMounted)
    && (forall t :: t in s.timers ==> t == OnLoadTimer(OnLoadDelay) || t == FirstLoadTimer(FirstLoadDelay))
  }

  lemma StepPreservesValid(s: State, e: Event)
    requires Valid(s)
    ensures Valid(Step(s, e))
  {
    var r := Step(s, e);
    forall t | t in r.timers
      ensures t == OnLoadTimer(OnLoadDelay) || t == FirstLoadTimer(FirstLoadDelay)
    {
    }
  }

  lemma {:induction false} RunPreservesValid(s: State, events: seq<Event>)
    requires Valid(s)
    ensures Valid(Run(s, events))
    decreases |events|
  {
    if events != [] {
      StepPreservesValid(s, events[0]);
      RunPreservesValid(Step(s, events[0]), events[1..]);
    }
  }

  // ---------------------------------------------------------------------
  // Properties

  /**
   * In every reachable state the two flags agree, so the overlay is shown
   * exactly while loading; at most one `onLoad` call is pending.
   */
  lemma ReachableFlags(events: seq<Event>)
    ensures var s := Run(Init(), events);
      && (Overlay(s) <==> s.isLoading)
      && (Overlay(s) <==> s.isFirstLoad)
      && s.timers[OnLoadTimer(OnLoadDelay)] <= 1
  {
    RunPreservesValid(Init(), events);
  }

  /** On the first load `onLoad` changes no flag; it schedules the 3000 ms timer. */
  lemma FirstLoadIsDelayed(s: State)
    requires Valid(s) && s.isFirstLoad && OnLoadTimer(OnLoadDelay) in s.timers
    ensures var r := Step(s, Fired(OnLoadTimer(OnLoadDelay)));
      && r.isLoading && r.isFirstLoad && Overlay(r)
      && FirstLoadTimer(FirstLoadDelay) in r.timers
      && var r2 := Step(r, Fired(FirstLoadTimer(FirstLoadDelay)));
         !r2.isLoading && !r2.isFirstLoad && !Overlay(r2)
  {
  }

  /** Once the first load is over, no sequence of events brings it back. */
  lemma {:induction false} FirstLoadNeverReturns(s: State, events: seq<Event>)
    requires !s.isFirstLoad
    ensures !Run(s, events).isFirstLoad
    decreases |events|
  {
    if events != [] {
      FirstLoadNeverReturns(Step(s, events[0]), events[1..]);
    }
  }

  /**
   * Every render while the model is mounted cancels the pending `onLoad`
   * call and schedules a fresh one, so exactly one is pending.
   */
  lemma RenderReschedulesOnLoad(s: State)
    requires Valid(s) && s.modelMounted
    ensures Step(s, Rerender).timers[OnLoadTimer(OnLoadDelay)] == 1
    ensures Unmount(Step(s, Rerender)).timers[OnLoadTimer(OnLoadDelay)] == 0
  {
  }
}

=== FILE: timers.dfy ===
/**
 * Pending `setTimeout` callbacks, kept as a multiset of timer values, and
 * the one way an effect hook replaces the timer it owns.
 */
module Timers {
  import opened Wrappers

  /**
   * Re-running an effect that owns one timer: the previous run's cleanup
   * clears the timer it armed (a no-op if it already fired), then the new
   * run arms its own, if any.
   */
  function Rearm<T(!new)>(timers: multiset<T>, previous: Option<T>, current: Option<T>): (r: multiset<T>)
    ensures previous.None? && current.None? ==> r == timers
    ensures current.Some? ==> current.value in r
    ensures forall t :: t in r ==> t in timers || Some(t) == current
    ensures forall t :: Some(t) != previous ==> r[t] >= timers[t]
    ensures forall t :: Some(t) != current ==> r[t] <= timers[t]
    ensures forall t :: (r[t] ==
      (if Some(t) == previous && timers[t] > 0 then timers[t] - 1 else timers[t])
        + (if Some(t) == current then 1 else 0))
  {
    var cleared := if previous.Some? then timers - multiset{previous.value} else timers;
    if current.Some? then cleared + multiset{current.value} else cleared
  }
}

=== FILE: video_slide.dfy ===
/**
 * The video viewer. Its one effect depends on `isActive` alone: when the
 * slide becomes active it requests playback, when it becomes inactive it
 * pauses the element and rewinds it to position 0. The element is always
 * muted. `playing` and `position` describe the media element itself.
 */
module VideoSlide {

  datatype State = State(
    isActive: bool,
    playing: bool,
    position: nat,
    muted: bool,
    logged: nat)

  datatype Event =
    | SetActive(active: bool)   // the parent re-renders with this `isActive`
    | PlayRejected              // the promise of an earlier play request is rejected
    | Progress(ms: nat)         // playback time elapses
    | Ended                     // playback reaches the end of the media

  /** The effect body, run with the current `isActive`. */
  function Effect(s: State, active: bool): (r: State)
    ensures r.isActive == active
    ensures active ==> r.playing && r.position == s.position
    ensures !active ==> !r.playing && r.position == 0
    ensures r.muted == s.muted && r.logged == s.logged
  {
    if active then s.(isActive := true, playing := true)
    else s.(isActive := false, playing := false, position := 0)
  }

  /** Mounting: a muted element at position 0; the effect runs once. */
  function Mount(isActive: bool): (s: State)
    ensures s.muted && s.position == 0 && s.isActive == isActive
    ensures s.playing <==> isActive
  {
    Effect(State(isActive, false, 0, true, 0), isActive)
  }

  function Step(s: State, e: Event): (r: State)
    ensures e.SetActive? && e.active == s.isActive ==> r == s
    ensures e.SetActive? && s.isActive && !e.active ==> !r.playing && r.position == 0
    ensures e.SetActive? && !s.isActive && e.active ==> r.playing && r.position == s.position
    ensures e.PlayRejected? ==>
      r.logged == s.logged + 1 && r.isActive == s.isActive && r.position == s.position && !r.playing
    ensures e.Progress? && !s.playing ==> r == s
    ensures e.Ended? ==> !r.playing && r.isActive == s.isActive && r.position == s.position
    ensures r.muted == s.muted
  {
    match e
    case SetActive(active) =>
      if active == s.isActive then s else Effect(s, active)
    case PlayRejected =>
      // The handler only logs; the element stays paused as the browser left it.
      s.(playing := false, logged := s.logged + 1)
    case Progress(ms) =>
      if s.playing then s.(position := s.position + ms) else s
    case Ended =>
      // Without the `loop` attribute the element stops, paused, at the end.
      s.(playing := false)
  }

  function Run(s: State, events: seq<Event>): State
    decreases |events|
  {
    if events == [] then s else Run(Step(s, events[0]), events[1..])
  }

  /** Muted always; an inactive element is paused at the start. */
  ghost predicate Valid(s: State) {
    && s.muted
    && (!s.isActive ==> !s.playing && s.position == 0)
  }

  lemma {:induction false} RunPreservesValid(s: State, events: seq<Event>)
    requires Valid(s)
    ensures Valid(Run(s, events))
    decreases |events|
  {
    if events != [] {
      RunPreservesValid(Step(s, events[0]), events[1..]);
    }
  }

  /**
   * Whatever happened since mounting, reactivating an inactive video
   * starts playback from position 0, never mid-way.
   */
  lemma ReactivationStartsFromZero(isActive: bool, events: seq<Event>)
    ensures var s := Run(Mount(isActive), events);
      && s.muted
      && (!s.isActive ==> Step(s, SetActive(true)).playing && Step(s, SetActive(true)).position == 0)
  {
    RunPreservesValid(Mount(isActive), events);
  }

  /** A rejected play request changes nothing but the log. */
  lemma RejectionOnlyLogs(s: State)
    requires Valid(s)
    ensures var r := Step(s, PlayRejected);
      r.isActive == s.isActive && r.position == s.position && r.logged == s.logged + 1 && Valid(r)
  {
  }
}

=== FILE: wrappers.dfy ===
/** Optional values: the model's stand-in for TypeScript's `T | null | undefined`. */
module Wrappers {

  datatype Option<+T> = None | Some(value: T) {

    /** The value, or `default` when absent (TypeScript's `??`). */
    function GetOr(default: T): (r: T)
      ensures Some? ==> r == value
      ensures None? ==> r == default
    {
      match this
      case Some(v) => v
      case None => default
    }
  }
}
